=== FILE: README.md ===
# farmerhelper — a Dafny model of the page logic

The farmerhelper web application is a set of dashboard pages for farmers. Almost all of it is
markup. This project models the three parts that hold logic, as pure functions over immutable
values:

- **Government schemes browser** (`src/app/government-schemes/page.js`). A static catalog groups
  schemes by category. The page lists its facets: "All", then each category. It narrows the catalog
  by the selected facet and by a case-insensitive search over scheme names and descriptions. Groups
  left with no scheme are dropped. This part is in module `Schemes`, built on `Seqs` (JavaScript's
  `filter`, `map` and `[...new Set(xs)]`) and `Text` (`toLowerCase` and `includes`).
- **Leaf disease detection upload** (`src/app/disease-detection/page.js`). The page keeps five state
  variables: selected image, preview URL, loading flag, error message and results. Upload, drop,
  submit and reset handlers change them. The asynchronous submit is split into two events: the click
  (`SubmitStart`) and the settling of the awaited analysis (`SubmitComplete`). This part is in module
  `LeafUpload`.
- **Cyclone warning styles** (`src/app/cyclone-warning/page.js`). Severity badges are looked up
  case-insensitively and warning backgrounds case-sensitively, each with a grey default. The loading
  flag starts true and is cleared once the data fetch settles. This part is in module `Cyclone`.

Design choices:

- An empty search with "All" does not always return the catalog unchanged:
  `government-schemes/page.js:128` still drops groups whose scheme list was already empty
  (`Schemes.InitialViewDropsOnlyEmptyGroups`). The catalog comes back unchanged only when no group is
  empty (`Schemes.InitialViewIsCatalog`).
- In the page's own catalog, the scheme names and descriptions with several words are written as
  lists of their words joined by single spaces (`Text.Words`). The joined value is the page's
  literal, byte for byte, including the mis-encoded rupee sign `â‚¹` of `page.js:37`. Written this
  way, the search examples can be proved word by word.
- The facet list is `['All', ...new Set(categories)]`. A catalog category literally named "All"
  would therefore appear twice. The model keeps this behaviour: `Schemes.Categories` de-duplicates only
  the catalog's own categories.
- `URL.createObjectURL` is a browser call. Its result is an extra parameter of the upload and drop
  handlers (`LeafUpload.ObjectUrl`). The outcome of the awaited analysis, and of the cyclone data
  fetch, is a parameter of the completing event. Its failure case stands for the `catch` branch.
- Reset clears the image but not the loading flag, and it does not cancel an analysis in flight.
  `LeafUpload.ResetDoesNotCancelAnalysis` states the consequence: results can be shown while no image
  is selected.

## Model

| member | source | states |
|---|---|---|
| Text.Lower | src/app/government-schemes/page.js:124-125 | lower-casing keeps the length, maps each upper-case letter A-Z to its lower-case letter (code point plus 32), changes no other character, and leaves no upper-case letter |
| Text.LowerIdempotent | src/app/cyclone-warning/page.js:112 | lower-casing an already lower-cased string changes nothing |
| Text.Contains | src/app/government-schemes/page.js:124-125 | `includes("")` is always true, and a found needle is never longer than the string searched |
| Text.ContainsIffOccurs | src/app/government-schemes/page.js:124-125 | `includes` answers true exactly when the needle occurs at some position of the string |
| Seqs.Filter | src/app/government-schemes/page.js:117-128 | `filter` keeps exactly the elements satisfying the predicate, in their original order (a subsequence of the input) |
| Seqs.FilterCount | src/app/government-schemes/page.js:123-126 | `filter` keeps every occurrence of a kept element and none of a dropped one |
| Seqs.Map | src/app/government-schemes/page.js:121-122 | `map` keeps the length and puts the image of the i-th element at position i |
| Seqs.DedupFrom | src/app/government-schemes/page.js:115 | the de-duplicated list holds each new element once, holds nothing else, and lists elements in order of first occurrence |
| Seqs.Dedup | src/app/government-schemes/page.js:115 | `[...new Set(s)]` holds every element of `s` exactly once, nothing else, in order of first occurrence |
| Seqs.NoDupCardinality | src/app/government-schemes/page.js:115 | a list without repetitions has as many distinct elements as entries |
| Schemes.SelectCategory | src/app/government-schemes/page.js:118-120 | the facet stage keeps exactly the catalog groups the facet admits, in catalog order |
| Schemes.Narrow | src/app/government-schemes/page.js:121-126 | a narrowed group keeps its category and changes only its scheme list. That list is an ordered subsequence of the original, holds exactly the schemes matching the search, and keeps every occurrence of a matching scheme (as many times as the original lists it) |
| Schemes.NarrowAll | src/app/government-schemes/page.js:121-127 | the search stage keeps one group per admitted group, with its category, and drops schemes only |
| Schemes.DropEmpty | src/app/government-schemes/page.js:128 | the last stage keeps exactly the groups with at least one scheme, in order |
| Schemes.FilteredSchemes | src/app/government-schemes/page.js:128 | no group in the result has an empty scheme list |
| Schemes.FilteredIsOrderedSubsequence | src/app/government-schemes/page.js:117-128 | the result is an ordered subsequence of the catalog with each group narrowed by the search |
| Schemes.NarrowSelectedCount | src/app/government-schemes/page.js:117-126 | narrowing the admitted groups yields each group as often as narrowing the whole catalog does when the facet admits its category, and never otherwise |
| Schemes.FilteredSchemesCount | src/app/government-schemes/page.js:117-128 | each group is shown exactly as often as it occurs among the narrowed catalog groups when it still lists a scheme and the facet admits it, and never otherwise; repeated groups stay repeated |
| Schemes.ShownGroupFromCatalog | src/app/government-schemes/page.js:117-128 | every shown group has a scheme and is a catalog group the facet admits, narrowed by the search |
| Schemes.CatalogGroupShown | src/app/government-schemes/page.js:117-128 | every admitted catalog group whose narrowing still lists a scheme is shown in its narrowed form |
| Schemes.GroupShownIff | src/app/government-schemes/page.js:117-128 | a group is shown iff it is a catalog group the facet admits, narrowed by the search, with at least one scheme left |
| Schemes.SchemeShownIff | src/app/government-schemes/page.js:118-126 | a scheme is shown under a category iff the facet admits it, a catalog group of that category lists it, and the lower-cased term occurs in its lower-cased name or description |
| Schemes.SelectedCategoryOnly | src/app/government-schemes/page.js:118-120 | with a facet other than "All", every shown group has exactly (case-sensitively) that category |
| Schemes.UnknownCategoryIsEmpty | src/app/government-schemes/page.js:118-120 | a facet other than "All" naming no catalog category shows nothing |
| Schemes.AllSelectsEverything | src/app/government-schemes/page.js:117-120 | with "All" no group is excluded by category; only the search and the empty-group rule apply |
| Schemes.SearchCaseInsensitive | src/app/government-schemes/page.js:123-126 | two search terms with the same lower-cased form give identical results |
| Schemes.SearchSeesLowerCase | src/app/government-schemes/page.js:123-126 | a term and its lower-cased form give identical results, so "PRADHAN" and "pradhan" agree |
| Schemes.EmptySearchMatchesAll | src/app/government-schemes/page.js:123-126 | the empty search matches every scheme |
| Schemes.EmptySearchKeepsGroup | src/app/government-schemes/page.js:121-126 | the empty search leaves every group unchanged |
| Schemes.InitialViewDropsOnlyEmptyGroups | src/app/government-schemes/page.js:112-128 | with the initial empty search and "All", the result is the catalog minus the groups that were already empty |
| Schemes.InitialViewIsCatalog | src/app/government-schemes/page.js:112-128 | a catalog with no empty group is shown exactly as it is on the initial view |
| Schemes.Categories | src/app/government-schemes/page.js:115 | the facet list starts with "All"; the rest holds exactly the catalog's categories, each once; its length is one more than the number of distinct categories |
| Schemes.CategoriesAreFirstSeenDistinct | src/app/government-schemes/page.js:115 | after "All", the categories appear in the order of their first appearance in the catalog, as a `Set` iterates them |
| Schemes.MockCategories | src/app/government-schemes/page.js:7-53 | the page's own catalog gives the facets "All", "Crop Insurance", "Financial Assistance" |
| Schemes.TwoGroupCategories | src/app/government-schemes/page.js:115 | a two-group catalog with distinct categories has the facets "All" and its two categories in catalog order |
| Schemes.NarrowSingleton | src/app/government-schemes/page.js:121-126 | a one-scheme group keeps its scheme when it matches the search and is left with no scheme otherwise |
| Schemes.TwoSingletonGroupsSearch | src/app/government-schemes/page.js:117-128 | under "All", a catalog of two one-scheme groups keeps exactly the groups whose scheme matches the search, in order |
| Schemes.PmfbyMatchesInsurance | src/app/government-schemes/page.js:13-14 | the crop insurance scheme matches "insurance" through its description |
| Schemes.PmKisanMissesInsurance | src/app/government-schemes/page.js:36-37 | PM-KISAN does not match "insurance" |
| Schemes.MockMissesZzz | src/app/government-schemes/page.js:7-53 | no scheme of the page's catalog matches "zzz" |
| Schemes.MockSearchInsurance | src/app/government-schemes/page.js:117-128 | on the page's catalog, "insurance" under "All" shows the Crop Insurance group alone, with scheme 1 |
| Schemes.MockSearchZzz | src/app/government-schemes/page.js:117-128 | on the page's catalog, "zzz" under "All" shows nothing |
| Schemes.MockSearchCaseInsensitive | src/app/government-schemes/page.js:123-126 | on the page's catalog, "PRADHAN" and "pradhan" give the same result |
| Schemes.MockFinancialAssistanceFacet | src/app/government-schemes/page.js:117-128 | on the page's catalog, facet "Financial Assistance" with no search shows that group alone, unchanged |
| LeafUpload.HandleImageUpload | src/app/disease-detection/page.js:69-81 | no file: nothing changes. An image file is selected with its preview and the error is cleared. Any other file sets "Please select an image file" and keeps the selection. Loading and results are never touched |
| LeafUpload.HandleDrop | src/app/disease-detection/page.js:92-105 | a dropped image file is selected with its preview and the error is cleared. A missing or non-image file sets "Please drop an image file" and keeps the selection |
| LeafUpload.SubmitStart | src/app/disease-detection/page.js:107-114 | with no image, only the error "Please select an image first" changes. With an image, loading is set and the error cleared. Image, preview and results are kept |
| LeafUpload.SubmitComplete | src/app/disease-detection/page.js:116-134 | loading always ends false. Success stores the detection and keeps the error. Failure sets "Failed to analyze image. Please try again." and keeps the old results |
| LeafUpload.HandleReset | src/app/disease-detection/page.js:137-145 | image, preview, results and error become empty; loading is untouched |
| LeafUpload.StepPreservesWellFormed | src/app/disease-detection/page.js:69-145 | every handler keeps the invariant: a preview exists exactly when an image is selected, and the selected file is an image |
| LeafUpload.RunPreservesWellFormed | src/app/disease-detection/page.js:69-145 | any sequence of events keeps that invariant |
| LeafUpload.ReachableIsWellFormed | src/app/disease-detection/page.js:17-21 | every state reachable from the initial all-empty state satisfies the invariant |
| LeafUpload.UploadVersusDrop | src/app/disease-detection/page.js:69-105 | upload and drop agree on image files. On a missing file, upload does nothing but drop reports an error. On a non-image file they differ only in the message |
| LeafUpload.SubmitFromButtonStartsAnalysis | src/app/disease-detection/page.js:184-194 | the submit button exists only while a preview is shown and is enabled only while not loading; from any reachable state where it can be clicked, a click starts the analysis and never hits the "no image" guard |
| LeafUpload.SubmitRoundEndsIdle | src/app/disease-detection/page.js:107-134 | a click followed by the analysis settling ends with loading false. With an image and a successful analysis, the results are stored and no error is shown |
| LeafUpload.PageAnalysisShowsLateBlight | src/app/disease-detection/page.js:107-134 | with the page's fixed analysis result, submitting a selected image ends with "Late Blight" shown, loading false and no error |
| LeafUpload.ResetDoesNotCancelAnalysis | src/app/disease-detection/page.js:107-145 | a reset while the analysis runs does not cancel it: its result appears with no image selected |
| Cyclone.SeverityColor | src/app/cyclone-warning/page.js:105-113 | a severity whose lower-cased form is a level's key gets that level's colour; grey exactly when it names no level |
| Cyclone.ParseSeverity | src/app/cyclone-warning/page.js:106-111 | a recognised key is the key of the level returned; an unrecognised one is no level's key |
| Cyclone.ParseSeverityKey | src/app/cyclone-warning/page.js:106-111 | parsing a level's key gives back that level |
| Cyclone.SeverityColorByLevel | src/app/cyclone-warning/page.js:105-113 | the colour table agrees with the four levels low/moderate/severe/very severe (yellow/orange/red/purple) and grey otherwise |
| Cyclone.SeverityColorCaseInsensitive | src/app/cyclone-warning/page.js:112 | severities with the same lower-cased form get the same colour |
| Cyclone.SevereInAnyCaseIsRed | src/app/cyclone-warning/page.js:105-113 | "Severe" and "severe" both give bg-red-500 |
| Cyclone.WarningBgColor | src/app/cyclone-warning/page.js:115-122 | the exact name of a warning level selects its background; grey exactly when the type is no level's exact name |
| Cyclone.WarningBgColorCaseSensitive | src/app/cyclone-warning/page.js:115-122 | "Red Alert" gets the red background while "red alert" gets grey |
| Cyclone.FetchSettled | src/app/cyclone-warning/page.js:88-103 | once the fetch settles, loading is false. Success stores the alert and history; failure keeps the previous data. The region is unchanged |
| Cyclone.SelectRegion | src/app/cyclone-warning/page.js:137-139 | choosing a region sets the selected region and leaves the alert, history and loading flag as they were |
| Cyclone.SelectAll | src/app/cyclone-warning/page.js:137-139 | a run of region choices leaves the last region chosen (or the old one if there is none) and keeps the alert, history and loading flag |
| Cyclone.SpinnerNeverReturns | src/app/cyclone-warning/page.js:88-145 | after the fetch settles, any sequence of region choices keeps the page out of the spinner view and keeps the fetched alert and history; the effect runs once and does not read the region |
| Cyclone.SpinnerUntilFetchSettles | src/app/cyclone-warning/page.js:24-129 | the page starts in the spinner view and leaves it when the fetch settles, with no alert if the fetch failed |

## Left out

- Text.Lower: only the ASCII letters A-Z are case-mapped. JavaScript's `toLowerCase` also maps non-ASCII letters, which this model does not.
- Cyclone.SeverityColor, Cyclone.WarningBgColor: the tables are finite maps with a default. JavaScript object lookup would also hit inherited keys such as "constructor" (a function, so truthy, in `getWarningBgColor` at `cyclone-warning/page.js:121`); the model ignores these.
- All JSX rendering and Tailwind classes on elements, the landing page `src/app/page.js`, and the expand toggle of `SchemeCard`. These are presentation only.
- `setTimeout` delays and the Promise machinery. Each asynchronous handler is modelled as two discrete events.
- `URL.createObjectURL` and the file input ref reset in `handleReset` are browser calls. The URL is an opaque parameter, and the input's value is not part of the state.
- Drag-over and drag-leave styling (`classList` changes) are UI side-effects that do not change the modelled state.
- Cyclone.SelectRegion: the region `<select>` is rendered only once loading is false (`cyclone-warning/page.js:124-130`), while the model lets the choice happen in any state. `selectedRegion` is read by nothing else on the page. `Cyclone.SpinnerNeverReturns` states the page's order: the fetch settles first, then the choices.
- The detection's `confidence` and the cyclone readings (wind, pressure, position, forecast) are floats or display values used only by rendering. `Date().toLocaleTimeString()` is a clock read. `console.error` is logging.
- LeafUpload.Step: it accepts every event in every state. The page allows fewer orders: the submit button is disabled while loading (`disease-detection/page.js:194`), and an analysis settles only after a submit that started one. Lemmas that depend on these UI rules state them as preconditions (`LeafUpload.SubmitFromButtonStartsAnalysis`).

=== FILE: cyclone.dfy ===
/**
 * The cyclone warning page: the two colour lookups applied to the current
 * alert, and the loading flag driven by the one-shot data fetch.
 */
module Cyclone {
  import opened Options
  import opened Text

  /** The severities the page has a colour for. */
  datatype Severity = Low | Moderate | Severe | VerySevere

  /** The lower-case key of each severity in the colour table. */
  function SeverityKey(v: Severity): string {
    match v
    case Low => "low"
    case Moderate => "moderate"
    case Severe => "severe"
    case VerySevere => "very severe"
  }

  /** The badge colour of each severity. */
  function SeverityToken(v: Severity): string {
    match v
    case Low => "bg-yellow-500"
    case Moderate => "bg-orange-500"
    case Severe => "bg-red-500"
    case VerySevere => "bg-purple-500"
  }

  const UnknownSeverityToken: string := "bg-gray-500"

  /** The `colors` object of `getSeverityColor`. */
  const SeverityColors: map<string, string> := map[
    "low" := "bg-yellow-500",
    "moderate" := "bg-orange-500",
    "severe" := "bg-red-500",
    "very severe" := "bg-purple-500"
  ]

  /** `getSeverityColor`: look the lower-cased severity up, grey when absent. */
  function SeverityColor(severity: string): (r: string)
    ensures forall v :: Lower(severity) == SeverityKey(v) ==> r == SeverityToken(v)
    ensures r == UnknownSeverityToken <==> forall v :: Lower(severity) != SeverityKey(v)
  {
    var key := Lower(severity);
    assert SeverityKey(Low) == "low" && SeverityKey(Moderate) == "moderate";
    assert SeverityKey(Severe) == "severe" && SeverityKey(VerySevere) == "very severe";
    if key in SeverityColors then SeverityColors[key] else UnknownSeverityToken
  }

  /** Recognises a severity from an already lower-cased key. */
  function ParseSeverity(key: string): (r: Option<Severity>)
    ensures r.Some? ==> SeverityKey(r.value) == key
    ensures r.None? ==> forall v :: SeverityKey(v) != key
  {
    if key == "low" then Some(Low)
    else if key == "moderate" then Some(Moderate)
    else if key == "severe" then Some(Severe)
    else if key == "very severe" then Some(VerySevere)
    else None
  }

  /** Parsing inverts the key of every severity. */
  lemma ParseSeverityKey(v: Severity)
    ensures ParseSeverity(SeverityKey(v)) == Some(v)
  {
  }

  /**
   * The table agrees with the enumeration: a severity whose lower-cased form
   * names a level gets that level's colour, any other string gets grey.
   */
  lemma SeverityColorByLevel(severity: string)
    ensures SeverityColor(severity) ==
      match ParseSeverity(Lower(severity))
      case Some(v) => SeverityToken(v)
      case None => UnknownSeverityToken
  {
  }

  /** The lookup ignores letter case, so "Severe" and "severe" share a colour. */
  lemma SeverityColorCaseInsensitive(a: string, b: string)
    requires Lower(a) == Lower(b)
    ensures SeverityColor(a) == SeverityColor(b)
  {
  }

  lemma SevereInAnyCaseIsRed()
    ensures SeverityColor("Severe") == "bg-red-500"
    ensures SeverityColor("severe") == "bg-red-500"
  {
    assert Lower("Severe") == "severe";
    assert Lower("severe") == "severe";
  }

  /** The warning levels the page has a background for. */
  datatype WarningLevel = RedAlert | OrangeAlert | YellowAlert

  /** The exact type string of each warning level. */
  function WarningName(w: WarningLevel): string {
    match w
    case RedAlert => "Red Alert"
    case OrangeAlert => "Orange Alert"
    case YellowAlert => "Yellow Alert"
  }

  function WarningToken(w: WarningLevel): string {
    match w
    case RedAlert => "bg-red-50 border-red-200"
    case OrangeAlert => "bg-orange-50 border-orange-200"
    case YellowAlert => "bg-yellow-50 border-yellow-200"
  }

  const UnknownWarningToken: string := "bg-gray-50 border-gray-200"

  /** The `colors` object of `getWarningBgColor`. */
  const WarningColors: map<string, string> := map[
    "Red Alert" := "bg-red-50 border-red-200",
    "Orange Alert" := "bg-orange-50 border-orange-200",
    "Yellow Alert" := "bg-yellow-50 border-yellow-200"
  ]

  /** `getWarningBgColor`: an exact, case-sensitive lookup, grey when absent. */
  function WarningBgColor(warningType: string): (r: string)
    ensures forall w :: warningType == WarningName(w) ==> r == WarningToken(w)
    ensures r == UnknownWarningToken <==> forall w :: warningType != WarningName(w)
  {
    assert WarningName(RedAlert) == "Red Alert";
    assert WarningName(OrangeAlert) == "Orange Alert";
    assert WarningName(YellowAlert) == "Yellow Alert";
    if warningType in WarningColors then WarningColors[warningType] else UnknownWarningToken
  }

  /** Unlike severities, warning types are not case-folded. */
  lemma WarningBgColorCaseSensitive()
    ensures WarningBgColor("Red Alert") == "bg-red-50 border-red-200"
    ensures WarningBgColor("red alert") == UnknownWarningToken
  {
    assert "red alert" != "Red Alert";
  }

  datatype Warning = Warning(warningType: string, areas: seq<string>, description: string)

  /** The fields of the alert that the lookups and lists use; the numeric readings are not modelled. */
  datatype CycloneAlert = CycloneAlert(
    id: string,
    name: string,
    severity: string,
    category: int,
    warnings: seq<Warning>,
    safetyMeasures: seq<string>)

  datatype WindSample = WindSample(time: string, windSpeed: int)

  /** The page's state variables. */
  datatype PageState = PageState(
    currentAlert: Option<CycloneAlert>,
    historicalData: seq<WindSample>,
    loading: bool,
    selectedRegion: string)

  const Initial: PageState := PageState(None, [], true, "coastal-region-1")

  /** How the fetch settled: the alert and history, or a caught error. */
  datatype FetchOutcome = Fetched(alert: CycloneAlert, history: seq<WindSample>) | FetchFailed

  /** The tail of the effect's `fetchData`: store on success, and in every case stop loading. */
  function FetchSettled(s: PageState, outcome: FetchOutcome): (r: PageState)
    ensures !r.loading
    ensures outcome.Fetched? ==> r.currentAlert == Some(outcome.alert) && r.historicalData == outcome.history
    ensures outcome.FetchFailed? ==> r.currentAlert == s.currentAlert && r.historicalData == s.historicalData
    ensures r.selectedRegion == s.selectedRegion
  {
    match outcome
    case Fetched(a, h) => s.(currentAlert := Some(a), historicalData := h, loading := false)
    case FetchFailed => s.(loading := false)
  }

  /** The region `<select>`'s change handler: only the selected region changes. */
  function SelectRegion(s: PageState, region: string): (r: PageState)
    ensures r.selectedRegion == region
    ensures r.currentAlert == s.currentAlert && r.historicalData == s.historicalData && r.loading == s.loading
  {
    s.(selectedRegion := region)
  }

  /** A run of choices from the region `<select>`, one after another. */
  function SelectAll(s: PageState, regions: seq<string>): (r: PageState)
    ensures r.selectedRegion == if |regions| == 0 then s.selectedRegion else regions[|regions| - 1]
    ensures r.currentAlert == s.currentAlert && r.historicalData == s.historicalData && r.loading == s.loading
    decreases |regions|
  {
    if |regions| == 0 then s else SelectAll(SelectRegion(s, regions[0]), regions[1..])
  }

  /** The page shows only a spinner while loading. */
  predicate ShowsSpinner(s: PageState) {
    s.loading
  }

  /** The spinner is shown from the first render until the fetch settles. */
  lemma SpinnerUntilFetchSettles(outcome: FetchOutcome)
    ensures ShowsSpinner(Initial)
    ensures !ShowsSpinner(FetchSettled(Initial, outcome))
    ensures outcome.FetchFailed? ==> FetchSettled(Initial, outcome).currentAlert.None?
  {
  }

  /**
   * The region `<select>` is rendered only once loading is over, and the fetch
   * effect runs once: after the fetch settles, any sequence of region choices
   * keeps the page out of the spinner view with the fetched alert and history.
   */
  lemma SpinnerNeverReturns(outcome: FetchOutcome, regions: seq<string>)
    ensures var settled := FetchSettled(Initial, outcome);
      var r := SelectAll(settled, regions);
      && !ShowsSpinner(r)
      && r.currentAlert == settled.currentAlert
      && r.historicalData == settled.historicalData
      && (outcome.Fetched? ==> r.currentAlert == Some(outcome.alert) && r.historicalData == outcome.history)
  {
  }
}

=== FILE: options.dfy ===
/** The JavaScript `null`-or-value fields of the pages' state records. */
module Options {

  datatype Option<+T> = None | Some(value: T)
}

=== FILE: schemes.dfy ===
/**
 * The government-schemes browser: a static catalog of schemes grouped by
 * category, a category facet ("All" or one category), and a free-text
 * search over scheme names and descriptions.
 */
module Schemes {
  import opened Text
  import opened Seqs

  /** One scheme card. `id` is the React key; the list fields are display text. */
  datatype Scheme = Scheme(
    id: int,
    name: string,
    description: string,
    eligibility: seq<string>,
    applicationProcess: seq<string>,
    deadline: string,
    website: string)

  /** One heading of the page with the schemes listed under it. */
  datatype CategoryGroup = CategoryGroup(category: string, schemes: seq<Scheme>)

  /** The facet value that disables category filtering. */
  const All: string := "All"

  /** The category facet: "All" keeps every group, anything else is compared case-sensitively. */
  predicate InCategory(g: CategoryGroup, selectedCategory: string) {
    selectedCategory == All || g.category == selectedCategory
  }

  /** The search: the lower-cased term occurs in the lower-cased name or description. */
  predicate MatchesSearch(s: Scheme, searchTerm: string) {
    Contains(Lower(s.name), Lower(searchTerm)) || Contains(Lower(s.description), Lower(searchTerm))
  }

  /** Stage 1: the groups the facet admits. */
  function SelectCategory(catalog: seq<CategoryGroup>, selectedCategory: string): (r: seq<CategoryGroup>)
    ensures forall g :: g in r <==> g in catalog && InCategory(g, selectedCategory)
    ensures IsSubseq(r, catalog)
  {
    Filter(catalog, g => InCategory(g, selectedCategory))
  }

  /** Stage 2 on one group: `{...group, schemes: group.schemes.filter(matches)}`. */
  function Narrow(g: CategoryGroup, searchTerm: string): (r: CategoryGroup)
    ensures r == g.(schemes := r.schemes)
    ensures IsSubseq(r.schemes, g.schemes)
    ensures forall s :: s in r.schemes <==> s in g.schemes && MatchesSearch(s, searchTerm)
    ensures forall s :: multiset(r.schemes)[s] == if MatchesSearch(s, searchTerm) then multiset(g.schemes)[s] else 0
  {
    var keep := s => MatchesSearch(s, searchTerm);
    forall s
      ensures multiset(Filter(g.schemes, keep))[s] == if MatchesSearch(s, searchTerm) then multiset(g.schemes)[s] else 0
    {
      FilterCount(g.schemes, keep, s);
    }
    g.(schemes := Filter(g.schemes, keep))
  }

  /** Stage 2 on the admitted groups. */
  function NarrowAll(groups: seq<CategoryGroup>, searchTerm: string): (r: seq<CategoryGroup>)
    ensures |r| == |groups|
    ensures forall i :: 0 <= i < |groups| ==> r[i].category == groups[i].category
    ensures forall i :: 0 <= i < |groups| ==> multiset(r[i].schemes) <= multiset(groups[i].schemes)
  {
    Map(groups, g => Narrow(g, searchTerm))
  }

  predicate HasSchemes(g: CategoryGroup) {
    |g.schemes| > 0
  }

  function CategoryOf(g: CategoryGroup): string {
    g.category
  }

  /** Stage 3: groups left with no scheme are not shown. */
  function DropEmpty(groups: seq<CategoryGroup>): (r: seq<CategoryGroup>)
    ensures forall g :: g in r <==> g in groups && |g.schemes| > 0
    ensures IsSubseq(r, groups)
  {
    Filter(groups, HasSchemes)
  }

  /** `filteredSchemes`: the three stages in the page's order. */
  function FilteredSchemes(catalog: seq<CategoryGroup>, searchTerm: string, selectedCategory: string)
    : (r: seq<CategoryGroup>)
    ensures forall i :: 0 <= i < |r| ==> |r[i].schemes| > 0
  {
    DropEmpty(NarrowAll(SelectCategory(catalog, selectedCategory), searchTerm))
  }

  /** The category column of the catalog holds exactly the groups' categories. */
  lemma CategoryNamesIff(catalog: seq<CategoryGroup>)
    ensures forall c :: c in Map(catalog, CategoryOf) <==> exists g :: g in catalog && g.category == c
  {
    var names := Map(catalog, CategoryOf);
    forall c | c in names
      ensures exists g :: g in catalog && g.category == c
    {
      var i :| 0 <= i < |names| && names[i] == c;
      assert catalog[i] in catalog;
    }
    forall c | exists g :: g in catalog && g.category == c
      ensures c in names
    {
      var g :| g in catalog && g.category == c;
      var i :| 0 <= i < |catalog| && catalog[i] == g;
      assert names[i] == c;
    }
  }

  /** `categories`: "All" followed by each category of the catalog once, in first-seen order. */
  function Categories(catalog: seq<CategoryGroup>): (r: seq<string>)
    ensures |r| >= 1 && r[0] == All
    ensures forall c :: c in r[1..] <==> exists g :: g in catalog && g.category == c
    ensures NoDup(r[1..])
    ensures |r| == 1 + |set g | g in catalog :: g.category|
  {
    var d := Dedup(Map(catalog, CategoryOf));
    assert ([All] + d)[1..] == d;
    CategoryNamesIff(catalog);
    NoDupCardinality(d);
    assert (set x | x in d) == (set g | g in catalog :: g.category);
    [All] + d
  }

  // ---------------------------------------------------------------------------
  // Properties of the query
  // ---------------------------------------------------------------------------

  /**
   * Order: the result is what remains of the catalog, every group narrowed by
   * the search, after deleting some groups — so groups keep their catalog
   * order, and within a group schemes keep their order (see `Narrow`).
   */
  lemma FilteredIsOrderedSubsequence(catalog: seq<CategoryGroup>, searchTerm: string, selectedCategory: string)
    ensures IsSubseq(FilteredSchemes(catalog, searchTerm, selectedCategory), NarrowAll(catalog, searchTerm))
  {
    var selected := SelectCategory(catalog, selectedCategory);
    SubseqMap(selected, catalog, g => Narrow(g, searchTerm));
    SubseqTransitive(FilteredSchemes(catalog, searchTerm, selectedCategory), NarrowAll(selected, searchTerm),
      NarrowAll(catalog, searchTerm));
  }

  /**
   * The facet stage and the search stage commute on counts: narrowing the
   * admitted groups yields each group as often as narrowing the whole catalog
   * does, when the facet admits its category, and never otherwise.
   */
  lemma {:induction false} NarrowSelectedCount(catalog: seq<CategoryGroup>, searchTerm: string, selectedCategory: string, x: CategoryGroup)
    ensures multiset(NarrowAll(SelectCategory(catalog, selectedCategory), searchTerm))[x] ==
      if InCategory(x, selectedCategory) then multiset(NarrowAll(catalog, searchTerm))[x] else 0
  {
    if |catalog| > 0 {
      var g := catalog[0];
      var rest := catalog[1..];
      NarrowSelectedCount(rest, searchTerm, selectedCategory, x);
      assert NarrowAll(catalog, searchTerm) == [Narrow(g, searchTerm)] + NarrowAll(rest, searchTerm);
      if InCategory(g, selectedCategory) {
        assert SelectCategory(catalog, selectedCategory) == [g] + SelectCategory(rest, selectedCategory);
        assert ([g] + SelectCategory(rest, selectedCategory))[1..] == SelectCategory(rest, selectedCategory);
      } else {
        assert SelectCategory(catalog, selectedCategory) == SelectCategory(rest, selectedCategory);
      }
    }
  }

  /**
   * Multiplicity: a group is shown exactly as often as it occurs among the
   * narrowed catalog groups, when it still lists a scheme and the facet admits
   * its category, and never otherwise. With `FilteredIsOrderedSubsequence`
   * this fixes the result, repeated groups included.
   */
  lemma FilteredSchemesCount(catalog: seq<CategoryGroup>, searchTerm: string, selectedCategory: string, x: CategoryGroup)
    ensures multiset(FilteredSchemes(catalog, searchTerm, selectedCategory))[x] ==
      if |x.schemes| > 0 && InCategory(x, selectedCategory) then multiset(NarrowAll(catalog, searchTerm))[x] else 0
  {
    FilterCount(NarrowAll(SelectCategory(catalog, selectedCategory), searchTerm), HasSchemes, x);
    NarrowSelectedCount(catalog, searchTerm, selectedCategory, x);
  }

  /** Every shown group is a catalog group the facet admits, narrowed by the search, with a scheme left. */
  lemma ShownGroupFromCatalog(catalog: seq<CategoryGroup>, searchTerm: string, selectedCategory: string, g: CategoryGroup)
    ensures g in FilteredSchemes(catalog, searchTerm, selectedCategory) ==>
      |g.schemes| > 0 &&
      exists g0 :: g0 in catalog && InCategory(g0, selectedCategory) && g == Narrow(g0, searchTerm)
  {
    var selected := SelectCategory(catalog, selectedCategory);
    var narrowed := NarrowAll(selected, searchTerm);
    if g in FilteredSchemes(catalog, searchTerm, selectedCategory) {
      assert g in narrowed;
      var i :| 0 <= i < |narrowed| && narrowed[i] == g;
      assert selected[i] in catalog && InCategory(selected[i], selectedCategory);
    }
  }

  /** Every catalog group the facet admits is shown, narrowed, unless the search leaves it empty. */
  lemma CatalogGroupShown(catalog: seq<CategoryGroup>, searchTerm: string, selectedCategory: string, g0: CategoryGroup)
    requires g0 in catalog && InCategory(g0, selectedCategory) && |Narrow(g0, searchTerm).schemes| > 0
    ensures Narrow(g0, searchTerm) in FilteredSchemes(catalog, searchTerm, selectedCategory)
  {
    var selected := SelectCategory(catalog, selectedCategory);
    var narrowed := NarrowAll(selected, searchTerm);
    assert g0 in selected;
    var i :| 0 <= i < |selected| && selected[i] == g0;
    assert narrowed[i] == Narrow(g0, searchTerm);
  }

  /**
   * Group survival: a group is shown exactly when it is a catalog group the
   * facet admits, narrowed by the search, with at least one scheme left.
   */
  lemma GroupShownIff(catalog: seq<CategoryGroup>, searchTerm: string, selectedCategory: string, g: CategoryGroup)
    ensures g in FilteredSchemes(catalog, searchTerm, selectedCategory) <==>
      |g.schemes| > 0 &&
      exists g0 :: g0 in catalog && InCategory(g0, selectedCategory) && g == Narrow(g0, searchTerm)
  {
    ShownGroupFromCatalog(catalog, searchTerm, selectedCategory, g);
    if |g.schemes| > 0 && exists g0 :: g0 in catalog && InCategory(g0, selectedCategory) && g == Narrow(g0, searchTerm) {
      var g0 :| g0 in catalog && InCategory(g0, selectedCategory) && g == Narrow(g0, searchTerm);
      CatalogGroupShown(catalog, searchTerm, selectedCategory, g0);
    }
  }

  /**
   * Scheme survival: a scheme is shown under category `c` exactly when the
   * facet admits `c`, some catalog group with category `c` lists it, and it
   * matches the search.
   */
  lemma SchemeShownIff(catalog: seq<CategoryGroup>, searchTerm: string, selectedCategory: string, c: string, s: Scheme)
    ensures (exists g :: g in FilteredSchemes(catalog, searchTerm, selectedCategory) && g.category == c && s in g.schemes) <==>
      (exists g0 :: g0 in catalog && InCategory(g0, selectedCategory) && g0.category == c && s in g0.schemes) &&
      MatchesSearch(s, searchTerm)
  {
    var r := FilteredSchemes(catalog, searchTerm, selectedCategory);
    if exists g :: g in r && g.category == c && s in g.schemes {
      var g :| g in r && g.category == c && s in g.schemes;
      GroupShownIff(catalog, searchTerm, selectedCategory, g);
      var g0 :| g0 in catalog && InCategory(g0, selectedCategory) && g == Narrow(g0, searchTerm);
      assert g0.category == c && s in g0.schemes;
    }
    if (exists g0 :: g0 in catalog && InCategory(g0, selectedCategory) && g0.category == c && s in g0.schemes) &&
      MatchesSearch(s, searchTerm)
    {
      var g0 :| g0 in catalog && InCategory(g0, selectedCategory) && g0.category == c && s in g0.schemes;
      var g := Narrow(g0, searchTerm);
      assert s in g.schemes;
      GroupShownIff(catalog, searchTerm, selectedCategory, g);
    }
  }

  /** The facet only admits groups whose category equals the selection exactly. */
  lemma SelectedCategoryOnly(catalog: seq<CategoryGroup>, searchTerm: string, selectedCategory: string)
    requires selectedCategory != All
    ensures forall g :: g in FilteredSchemes(catalog, searchTerm, selectedCategory) ==> g.category == selectedCategory
  {
    forall g | g in FilteredSchemes(catalog, searchTerm, selectedCategory)
      ensures g.category == selectedCategory
    {
      GroupShownIff(catalog, searchTerm, selectedCategory, g);
    }
  }

  /** A selection that names no catalog category (and is not "All") shows nothing. */
  lemma UnknownCategoryIsEmpty(catalog: seq<CategoryGroup>, searchTerm: string, selectedCategory: string)
    requires selectedCategory != All
    requires forall g :: g in catalog ==> g.category != selectedCategory
    ensures FilteredSchemes(catalog, searchTerm, selectedCategory) == []
  {
  }

  /** With "All" the facet excludes no group: only the search and the empty-group rule remain. */
  lemma AllSelectsEverything(catalog: seq<CategoryGroup>, searchTerm: string)
    ensures SelectCategory(catalog, All) == catalog
    ensures FilteredSchemes(catalog, searchTerm, All) == DropEmpty(NarrowAll(catalog, searchTerm))
  {
    FilterKeepsAll(catalog, g => InCategory(g, All));
  }

  /** The search is case-insensitive: it sees the term only through its lower-cased form. */
  lemma SearchCaseInsensitive(catalog: seq<CategoryGroup>, t1: string, t2: string, selectedCategory: string)
    requires Lower(t1) == Lower(t2)
    ensures FilteredSchemes(catalog, t1, selectedCategory) == FilteredSchemes(catalog, t2, selectedCategory)
  {
    var selected := SelectCategory(catalog, selectedCategory);
    forall g | g in selected
      ensures Narrow(g, t1) == Narrow(g, t2)
    {
      FilterCongruent(g.schemes, s => MatchesSearch(s, t1), s => MatchesSearch(s, t2));
    }
    MapCongruent(selected, g => Narrow(g, t1), g => Narrow(g, t2));
  }

  /** In particular a term and its lower-cased form give the same result. */
  lemma SearchSeesLowerCase(catalog: seq<CategoryGroup>, searchTerm: string, selectedCategory: string)
    ensures FilteredSchemes(catalog, searchTerm, selectedCategory) == FilteredSchemes(catalog, Lower(searchTerm), selectedCategory)
  {
    LowerIdempotent(searchTerm);
    SearchCaseInsensitive(catalog, searchTerm, Lower(searchTerm), selectedCategory);
  }

  /** The empty search matches every scheme, because every string includes "". */
  lemma EmptySearchMatchesAll(s: Scheme)
    ensures MatchesSearch(s, "")
  {
    assert Lower("") == "";
  }

  /** The empty search narrows no group. */
  lemma EmptySearchKeepsGroup(g: CategoryGroup)
    ensures Narrow(g, "") == g
  {
    forall s | s in g.schemes
      ensures MatchesSearch(s, "")
    {
      EmptySearchMatchesAll(s);
    }
    FilterKeepsAll(g.schemes, s => MatchesSearch(s, ""));
  }

  /**
   * The initial page state (empty search, "All") shows the catalog unchanged
   * except for groups whose scheme list was already empty.
   */
  lemma InitialViewDropsOnlyEmptyGroups(catalog: seq<CategoryGroup>)
    ensures FilteredSchemes(catalog, "", All) == DropEmpty(catalog)
  {
    AllSelectsEverything(catalog, "");
    forall g | g in catalog
      ensures Narrow(g, "") == g
    {
      EmptySearchKeepsGroup(g);
    }
    MapIdentity(catalog, g => Narrow(g, ""));
  }

  /** So a catalog without empty groups is shown exactly as it is. */
  lemma InitialViewIsCatalog(catalog: seq<CategoryGroup>)
    requires forall g :: g in catalog ==> |g.schemes| > 0
    ensures FilteredSchemes(catalog, "", All) == catalog
  {
    InitialViewDropsOnlyEmptyGroups(catalog);
    FilterKeepsAll(catalog, HasSchemes);
  }

  // ---------------------------------------------------------------------------
  // Properties of the category facet list
  // ---------------------------------------------------------------------------

  /**
   * After "All", the facet list names the categories in the order of their
   * first appearance in the catalog, as a JavaScript `Set` iterates them.
   */
  lemma CategoriesAreFirstSeenDistinct(catalog: seq<CategoryGroup>)
    ensures var cats := Categories(catalog);
      var names := Map(catalog, CategoryOf);
      forall i, j :: 1 <= i < j < |cats| ==> IndexOf(names, cats[i]) < IndexOf(names, cats[j])
  {
    assert Categories(catalog)[1..] == Dedup(Map(catalog, CategoryOf));
  }

  // ---------------------------------------------------------------------------
  // The page's own catalog
  // ---------------------------------------------------------------------------

  // The names and descriptions searched by the query are written as their
  // words joined by single spaces; the value is the page's literal.

  const PmfbyNameWords: seq<string> := ["Pradhan", "Mantri", "Fasal", "Bima", "Yojana"]

  const PmfbyDescriptionWords: seq<string> :=
    ["Provides", "comprehensive", "insurance", "coverage", "against", "crop", "failure"]

  const PmKisanDescriptionWords: seq<string> :=
    ["Direct", "income", "support", "of", "â‚¹6000", "per", "year", "to", "farmer", "families"]

  const PmfbySchemeData: Scheme := Scheme(
    1,
    Words(PmfbyNameWords),
    Words(PmfbyDescriptionWords),
    ["All farmers including sharecroppers and tenant farmers",
     "Must have insurable interest in crops",
     "Must be growing notified crops"],
    ["Visit nearest bank branch or insurance company",
     "Fill application form",
     "Submit required documents",
     "Pay premium amount"],
    "Before sowing season",
    "https://pmfby.gov.in")

  const PmKisanSchemeData: Scheme := Scheme(
    2,
    "PM-KISAN",
    Words(PmKisanDescriptionWords),
    ["Small and marginal farmers",
     "Own cultivable land",
     "Names in land records"],
    ["Register on PM-KISAN portal",
     "Submit land records",
     "Verify Aadhaar details"],
    "Rolling basis",
    "https://pmkisan.gov.in")

  const MockCatalog: seq<CategoryGroup> := [
    CategoryGroup("Crop Insurance", [PmfbySchemeData]),
    CategoryGroup("Financial Assistance", [PmKisanSchemeData])
  ]

  /** The facet list of a two-group catalog with distinct categories. */
  lemma TwoGroupCategories(catalog: seq<CategoryGroup>)
    requires |catalog| == 2 && catalog[0].category != catalog[1].category
    ensures Categories(catalog) == [All, catalog[0].category, catalog[1].category]
  {
    var names := Map(catalog, CategoryOf);
    assert names == [catalog[0].category, catalog[1].category];
    var seen: set<string> := {};
    assert DedupFrom(names, seen) == [names[0]] + DedupFrom(names[1..], seen + {names[0]});
    assert names[1..] == [catalog[1].category];
    assert DedupFrom(names[1..], seen + {names[0]}) == [catalog[1].category];
  }

  /** The page's facet list is "All", "Crop Insurance", "Financial Assistance". */
  lemma MockCategories()
    ensures Categories(MockCatalog) == ["All", "Crop Insurance", "Financial Assistance"]
  {
    TwoGroupCategories(MockCatalog);
  }

  /** Choosing "Financial Assistance" with no search shows that group alone, unchanged. */
  lemma MockFinancialAssistanceFacet()
    ensures FilteredSchemes(MockCatalog, "", "Financial Assistance") == [MockCatalog[1]]
  {
    var selected := SelectCategory(MockCatalog, "Financial Assistance");
    assert "Crop Insurance" != "Financial Assistance";
    assert selected == Filter(MockCatalog[1..], g => InCategory(g, "Financial Assistance"));
    assert MockCatalog[1..][1..] == [];
    assert selected == [MockCatalog[1]];
    EmptySearchKeepsGroup(MockCatalog[1]);
    assert NarrowAll(selected, "") == [MockCatalog[1]];
  }

  /** Searching "insurance" finds the crop insurance scheme through its description. */
  lemma PmfbyMatchesInsurance()
    ensures MatchesSearch(PmfbySchemeData, "insurance")
  {
    assert Lower("insurance") == "insurance";
    assert PmfbyDescriptionWords[2] == "insurance";
    assert Contains(Lower(PmfbyDescriptionWords[2]), "insurance");
    SomeWordContains(PmfbyDescriptionWords, "insurance", 2);
  }

  /** PM-KISAN does not mention "insurance": every word of its text is shorter. */
  lemma PmKisanMissesInsurance()
    ensures !MatchesSearch(PmKisanSchemeData, "insurance")
  {
    assert Lower("insurance") == "insurance";
    assert forall i :: 0 <= i < |PmKisanDescriptionWords| ==> |PmKisanDescriptionWords[i]| < 9;
    NoWordContains(PmKisanDescriptionWords, "insurance");
  }

  /** Text none of whose words contains a z, in either case, does not include "zzz". */
  lemma NoZNoMatch(ws: seq<string>)
    requires |ws| > 0
    requires forall w :: w in ws ==> 'z' !in w && 'Z' !in w
    ensures !Contains(Lower(Words(ws)), "zzz")
  {
    forall i | 0 <= i < |ws|
      ensures !Contains(Lower(ws[i]), "zzz")
    {
      assert ws[i] in ws;
      LowerAvoidsLetter(ws[i], 'z');
      AbsentFirstChar(Lower(ws[i]), "zzz");
    }
    NoWordContains(ws, "zzz");
  }

  /** No word of the crop insurance scheme's name has a z in either case. */
  lemma PmfbyNameWordsHaveNoZ()
    ensures forall w :: w in PmfbyNameWords ==> 'z' !in w && 'Z' !in w
  {
  }

  /** No word of the crop insurance scheme's description has a z in either case. */
  lemma PmfbyDescriptionWordsHaveNoZ()
    ensures forall w :: w in PmfbyDescriptionWords ==> 'z' !in w && 'Z' !in w
  {
  }

  /** No word of PM-KISAN's description has a z in either case. */
  lemma PmKisanDescriptionWordsHaveNoZ()
    ensures forall w :: w in PmKisanDescriptionWords ==> 'z' !in w && 'Z' !in w
  {
  }

  /** Neither the crop insurance scheme's name nor its description includes "zzz". */
  lemma PmfbyTextsMissZzz()
    ensures !Contains(Lower(Words(PmfbyNameWords)), "zzz")
    ensures !Contains(Lower(Words(PmfbyDescriptionWords)), "zzz")
  {
    PmfbyNameWordsHaveNoZ();
    NoZNoMatch(PmfbyNameWords);
    PmfbyDescriptionWordsHaveNoZ();
    NoZNoMatch(PmfbyDescriptionWords);
  }

  /** PM-KISAN's name does not include "zzz". */
  lemma PmKisanNameMissesZzz()
    ensures !Contains(Lower("PM-KISAN"), "zzz")
  {
    LowerAvoidsLetter("PM-KISAN", 'z');
    AbsentFirstChar(Lower("PM-KISAN"), "zzz");
  }

  /** PM-KISAN's description does not include "zzz". */
  lemma PmKisanDescriptionMissesZzz()
    ensures !Contains(Lower(Words(PmKisanDescriptionWords)), "zzz")
  {
    PmKisanDescriptionWordsHaveNoZ();
    NoZNoMatch(PmKisanDescriptionWords);
  }

  /** Searching "zzz" matches no scheme of the page's catalog. */
  lemma MockMissesZzz()
    ensures !MatchesSearch(PmfbySchemeData, "zzz")
    ensures !MatchesSearch(PmKisanSchemeData, "zzz")
  {
    assert Lower("zzz") == "zzz";
    PmfbyTextsMissZzz();
    PmKisanNameMissesZzz();
    PmKisanDescriptionMissesZzz();
  }

  /** A one-scheme group keeps its scheme when it matches and is left empty otherwise. */
  lemma NarrowSingleton(g: CategoryGroup, searchTerm: string)
    requires |g.schemes| == 1
    ensures Narrow(g, searchTerm) == if MatchesSearch(g.schemes[0], searchTerm) then g else g.(schemes := [])
  {
    assert g.schemes == [g.schemes[0]];
    if MatchesSearch(g.schemes[0], searchTerm) {
      FilterKeepsAll(g.schemes, s => MatchesSearch(s, searchTerm));
    }
  }

  /** Under "All", a catalog of two one-scheme groups keeps exactly the groups whose scheme matches. */
  lemma TwoSingletonGroupsSearch(catalog: seq<CategoryGroup>, searchTerm: string)
    requires |catalog| == 2 && |catalog[0].schemes| == 1 && |catalog[1].schemes| == 1
    ensures FilteredSchemes(catalog, searchTerm, All) ==
      (if MatchesSearch(catalog[0].schemes[0], searchTerm) then [catalog[0]] else []) +
      (if MatchesSearch(catalog[1].schemes[0], searchTerm) then [catalog[1]] else [])
  {
    AllSelectsEverything(catalog, searchTerm);
    var narrowed := NarrowAll(catalog, searchTerm);
    NarrowSingleton(catalog[0], searchTerm);
    NarrowSingleton(catalog[1], searchTerm);
    assert narrowed[1..][1..] == [];
    assert DropEmpty(narrowed) ==
      (if HasSchemes(narrowed[0]) then [narrowed[0]] else []) + Filter(narrowed[1..], HasSchemes);
    assert Filter(narrowed[1..], HasSchemes) == if HasSchemes(narrowed[1]) then [narrowed[1]] else [];
  }

  /** On the page's catalog, searching "insurance" under "All" shows the crop insurance group alone. */
  lemma MockSearchInsurance()
    ensures FilteredSchemes(MockCatalog, "insurance", All) == [MockCatalog[0]]
  {
    PmfbyMatchesInsurance();
    PmKisanMissesInsurance();
    TwoSingletonGroupsSearch(MockCatalog, "insurance");
  }

  /** On the page's catalog, searching "zzz" under "All" shows nothing. */
  lemma MockSearchZzz()
    ensures FilteredSchemes(MockCatalog, "zzz", All) == []
  {
    MockMissesZzz();
    TwoSingletonGroupsSearch(MockCatalog, "zzz");
  }

  /** "PRADHAN" and "pradhan" select the same schemes. */
  lemma MockSearchCaseInsensitive()
    ensures FilteredSchemes(MockCatalog, "PRADHAN", All) == FilteredSchemes(MockCatalog, "pradhan", All)
  {
    assert Lower("PRADHAN") == "pradhan" == Lower("pradhan");
    SearchCaseInsensitive(MockCatalog, "PRADHAN", "pradhan", All);
  }
}

=== FILE: seqs.dfy ===
/**
 * The array operations the pages use — `filter`, `map`, and the
 * first-seen de-duplication of `[...new Set(xs)]` — with the order facts
 * the query relies on.
 */
module Seqs {

  /** `a` can be obtained from `b` by deleting elements, keeping the rest in order. */
  predicate IsSubseq<T(==)>(a: seq<T>, b: seq<T>)
    decreases |b|
  {
    if |a| == 0 then true
    else if |b| == 0 then false
    else (a[0] == b[0] && IsSubseq(a[1..], b[1..])) || IsSubseq(a, b[1..])
  }

  /** No element occurs twice. */
  predicate NoDup<T(==)>(s: seq<T>) {
    forall i, j :: 0 <= i < j < |s| ==> s[i] != s[j]
  }

  /** `xs.filter(p)`: the elements satisfying `p`, in order, each as often as in `s`. */
  function Filter<T(==,!new)>(s: seq<T>, p: T -> bool): (r: seq<T>)
    ensures forall x :: x in r <==> x in s && p(x)
    ensures forall i :: 0 <= i < |r| ==> p(r[i])
    ensures IsSubseq(r, s)
  {
    if |s| == 0 then []
    else if p(s[0]) then [s[0]] + Filter(s[1..], p) else Filter(s[1..], p)
  }

  /** A filter keeps every occurrence of a kept element and none of a dropped one. */
  lemma {:induction false} FilterCount<T(!new)>(s: seq<T>, p: T -> bool, x: T)
    ensures multiset(Filter(s, p))[x] == if p(x) then multiset(s)[x] else 0
  {
    if |s| > 0 {
      FilterCount(s[1..], p, x);
      assert s == [s[0]] + s[1..];
    }
  }

  /** `xs.map(f)`. */
  function Map<T, U>(s: seq<T>, f: T -> U): (r: seq<U>)
    ensures |r| == |s|
    ensures forall i :: 0 <= i < |s| ==> r[i] == f(s[i])
  {
    if |s| == 0 then [] else [f(s[0])] + Map(s[1..], f)
  }

  /** Index of the first occurrence of `x` in `s`. */
  function IndexOf<T(==)>(s: seq<T>, x: T): (k: nat)
    requires x in s
    ensures k < |s| && s[k] == x && x !in s[..k]
  {
    if s[0] == x then 0 else 1 + IndexOf(s[1..], x)
  }

  /**
   * The elements of `s` not in `seen`, each once, in first-seen order — the
   * iteration order of a JavaScript `Set` built from `s` after `seen`.
   */
  function DedupFrom<T(==,!new)>(s: seq<T>, seen: set<T>): (r: seq<T>)
    ensures forall x :: x in r <==> x in s && x !in seen
    ensures NoDup(r)
    ensures IsSubseq(r, s)
    ensures forall i, j :: 0 <= i < j < |r| ==> IndexOf(s, r[i]) < IndexOf(s, r[j])
  {
    if |s| == 0 then []
    else if s[0] in seen then DedupFrom(s[1..], seen)
    else
      var rest := DedupFrom(s[1..], seen + {s[0]});
      assert forall x :: x in rest ==> x != s[0];
      assert forall x :: x in rest ==> IndexOf(s, x) == 1 + IndexOf(s[1..], x);
      [s[0]] + rest
  }

  /** `[...new Set(s)]`. */
  function Dedup<T(==,!new)>(s: seq<T>): (r: seq<T>)
    ensures forall x :: x in r <==> x in s
    ensures NoDup(r)
    ensures forall i, j :: 0 <= i < j < |r| ==> IndexOf(s, r[i]) < IndexOf(s, r[j])
  {
    DedupFrom(s, {})
  }

  /** A sequence without repetitions has as many distinct elements as positions. */
  lemma {:induction false} NoDupCardinality<T>(s: seq<T>)
    requires NoDup(s)
    ensures |set x | x in s| == |s|
  {
    if |s| > 0 {
      assert NoDup(s[1..]);
      NoDupCardinality(s[1..]);
      assert (set x | x in s) == {s[0]} + (set x | x in s[1..]);
      assert s[0] !in s[1..];
    }
  }

  /** Deleting from a subsequence of `b` still leaves a subsequence of `b`. */
  lemma {:induction false} SubseqTransitive<T>(a: seq<T>, b: seq<T>, c: seq<T>)
    requires IsSubseq(a, b) && IsSubseq(b, c)
    ensures IsSubseq(a, c)
    decreases |c|
  {
    if |a| == 0 {
    } else if a[0] == b[0] && IsSubseq(a[1..], b[1..]) {
      if b[0] == c[0] && IsSubseq(b[1..], c[1..]) {
        SubseqTransitive(a[1..], b[1..], c[1..]);
      } else {
        SubseqTransitive(a, b, c[1..]);
      }
    } else {
      if b[0] == c[0] && IsSubseq(b[1..], c[1..]) {
        SubseqTransitive(a, b[1..], c[1..]);
      } else {
        SubseqTransitive(a, b, c[1..]);
      }
    }
  }

  /** Mapping both sides keeps the subsequence relation. */
  lemma {:induction false} SubseqMap<T, U>(a: seq<T>, b: seq<T>, f: T -> U)
    requires IsSubseq(a, b)
    ensures IsSubseq(Map(a, f), Map(b, f))
    decreases |b|
  {
    if |a| == 0 {
    } else if a[0] == b[0] && IsSubseq(a[1..], b[1..]) {
      SubseqMap(a[1..], b[1..], f);
      assert Map(a, f)[1..] == Map(a[1..], f);
      assert Map(b, f)[1..] == Map(b[1..], f);
    } else {
      SubseqMap(a, b[1..], f);
      assert Map(b, f)[1..] == Map(b[1..], f);
    }
  }

  /** A filter whose predicate holds of every element keeps the whole sequence. */
  lemma {:induction false} FilterKeepsAll<T(!new)>(s: seq<T>, p: T -> bool)
    requires forall x :: x in s ==> p(x)
    ensures Filter(s, p) == s
  {
    if |s| > 0 {
      FilterKeepsAll(s[1..], p);
      assert s == [s[0]] + s[1..];
    }
  }

  /** Filters with predicates that agree on `s` give the same result. */
  lemma {:induction false} FilterCongruent<T(!new)>(s: seq<T>, p: T -> bool, q: T -> bool)
    requires forall x :: x in s ==> p(x) == q(x)
    ensures Filter(s, p) == Filter(s, q)
  {
    if |s| > 0 {
      FilterCongruent(s[1..], p, q);
    }
  }

  /** Maps with functions that agree on `s` give the same result. */
  lemma {:induction false} MapCongruent<T, U>(s: seq<T>, f: T -> U, g: T -> U)
    requires forall x :: x in s ==> f(x) == g(x)
    ensures Map(s, f) == Map(s, g)
  {
    if |s| > 0 {
      MapCongruent(s[1..], f, g);
    }
  }

  /** A map with a function that fixes every element of `s` returns `s`. */
  lemma MapIdentity<T>(s: seq<T>, f: T -> T)
    requires forall x :: x in s ==> f(x) == x
    ensures Map(s, f) == s
  {
  }
}

=== FILE: text.dfy ===
/**
 * The two string primitives the pages rely on: `String.prototype.toLowerCase`
 * (modelled on ASCII letters only) and `String.prototype.includes`.
 */
module Text {

  predicate IsUpper(c: char) {
    'A' <= c <= 'Z'
  }

  /** Lower-cases one ASCII letter; every other character is kept. */
  function LowerChar(c: char): (r: char)
    ensures !IsUpper(r)
    ensures !IsUpper(c) ==> r == c
    ensures IsUpper(c) ==> 'a' <= r <= 'z' && r as int - c as int == 32
  {
    if IsUpper(c) then (c as int + 32) as char else c
  }

  /** `s.toLowerCase()` restricted to ASCII case mapping. */
  function Lower(s: string): (r: string)
    ensures |r| == |s|
    ensures forall i :: 0 <= i < |r| ==> !IsUpper(r[i])
    ensures forall i :: 0 <= i < |s| && !IsUpper(s[i]) ==> r[i] == s[i]
    ensures forall i :: 0 <= i < |s| && IsUpper(s[i]) ==> r[i] as int == s[i] as int + 32
  {
    seq(|s|, i requires 0 <= i < |s| => LowerChar(s[i]))
  }

  /** Lower-casing twice is lower-casing once. */
  lemma LowerIdempotent(s: string)
    ensures Lower(Lower(s)) == Lower(s)
  {
  }

  /** `needle` sits in `hay` starting at position `k`. */
  predicate OccursAt(hay: string, needle: string, k: int) {
    0 <= k && k + |needle| <= |hay| && hay[k..k + |needle|] == needle
  }

  /** `hay.includes(needle)`: scan for `needle` as a prefix of each suffix of `hay`. */
  function Contains(hay: string, needle: string): (r: bool)
    ensures |needle| == 0 ==> r
    ensures r ==> |needle| <= |hay|
    decreases |hay|
  {
    if needle <= hay then true
    else if |hay| == 0 then false
    else Contains(hay[1..], needle)
  }

  /** An occurrence is either at the front of `hay` or one position into its tail. */
  lemma OccursAtFrontOrTail(hay: string, needle: string, k: int)
    requires OccursAt(hay, needle, k)
    ensures needle <= hay || (|hay| > 0 && OccursAt(hay[1..], needle, k - 1))
  {
    if k == 0 {
      assert needle == hay[..|needle|];
    } else {
      assert hay[1..][k - 1..k - 1 + |needle|] == hay[k..k + |needle|];
    }
  }

  /** The scan finds `needle` exactly when it occurs at some position of `hay`. */
  lemma {:induction false} ContainsIffOccurs(hay: string, needle: string)
    ensures Contains(hay, needle) <==> exists k :: OccursAt(hay, needle, k)
    decreases |hay|
  {
    if needle <= hay {
      assert hay[0..|needle|] == needle;
      assert OccursAt(hay, needle, 0);
    } else if |hay| == 0 {
      forall k | OccursAt(hay, needle, k)
        ensures false
      {
        OccursAtFrontOrTail(hay, needle, k);
      }
    } else {
      ContainsIffOccurs(hay[1..], needle);
      if Contains(hay[1..], needle) {
        var k :| OccursAt(hay[1..], needle, k);
        assert hay[k + 1..k + 1 + |needle|] == hay[1..][k..k + |needle|];
        assert OccursAt(hay, needle, k + 1);
      } else {
        forall k | OccursAt(hay, needle, k)
          ensures false
        {
          OccursAtFrontOrTail(hay, needle, k);
        }
      }
    }
  }

  /** A character absent from `hay` cannot start an occurrence. */
  lemma AbsentFirstChar(hay: string, needle: string)
    requires |needle| > 0 && needle[0] !in hay
    ensures !Contains(hay, needle)
  {
    ContainsIffOccurs(hay, needle);
    forall k | OccursAt(hay, needle, k)
      ensures false
    {
      OccurrenceStartsWith(hay, needle, k);
    }
  }

  lemma OccurrenceStartsWith(hay: string, needle: string, k: int)
    requires OccursAt(hay, needle, k) && |needle| > 0
    ensures hay[k] == needle[0]
  {
    assert hay[k] == hay[k..k + |needle|][0];
  }

  /** A lower-case letter appears after lower-casing only where it or its capital was. */
  lemma LowerAvoidsLetter(s: string, c: char)
    requires 'a' <= c <= 'z'
    requires c !in s && (c as int - 32) as char !in s
    ensures c !in Lower(s)
  {
    if i :| 0 <= i < |s| && Lower(s)[i] == c {
      assert s[i] == c || s[i] == (c as int - 32) as char;
    }
  }

  /** Text written as words joined by single spaces, as `ws.join(" ")` would produce. */
  function Words(ws: seq<string>): (r: string)
    ensures forall w, c :: w in ws && c in w ==> c in r
    ensures forall c :: c in r && c != ' ' ==> exists w :: w in ws && c in w
  {
    if |ws| == 0 then "" else if |ws| == 1 then ws[0] else ws[0] + " " + Words(ws[1..])
  }

  lemma LowerConcat(a: string, b: string)
    ensures Lower(a + b) == Lower(a) + Lower(b)
  {
    assert forall i :: 0 <= i < |a| ==> (a + b)[i] == a[i];
    assert forall i :: |a| <= i < |a| + |b| ==> (a + b)[i] == b[i - |a|];
  }

  /** Lower-casing text written as words lower-cases each word and keeps the spaces. */
  lemma LowerWordsStep(ws: seq<string>)
    requires |ws| > 1
    ensures Lower(Words(ws)) == Lower(ws[0]) + [' '] + Lower(Words(ws[1..]))
  {
    LowerConcat(ws[0] + " ", Words(ws[1..]));
    LowerConcat(ws[0], " ");
    assert Lower(" ") == " ";
  }

  /** An occurrence in either part of a concatenation is an occurrence in the whole. */
  lemma ContainsInPart(x: string, y: string, needle: string)
    requires Contains(x, needle) || Contains(y, needle)
    ensures Contains(x + y, needle)
  {
    ContainsIffOccurs(x, needle);
    ContainsIffOccurs(y, needle);
    ContainsIffOccurs(x + y, needle);
    if Contains(x, needle) {
      var k :| OccursAt(x, needle, k);
      assert (x + y)[k..k + |needle|] == x[k..k + |needle|];
      assert OccursAt(x + y, needle, k);
    } else {
      var k :| OccursAt(y, needle, k);
      assert (x + y)[|x| + k..|x| + k + |needle|] == y[k..k + |needle|];
      assert OccursAt(x + y, needle, |x| + k);
    }
  }

  /** A needle without the separator that occurs in `x + [c] + y` occurs in `x` or in `y`. */
  lemma SplitAtSeparator(x: string, c: char, y: string, needle: string)
    requires c !in needle
    requires Contains(x + [c] + y, needle)
    ensures Contains(x, needle) || Contains(y, needle)
  {
    var hay := x + [c] + y;
    ContainsIffOccurs(hay, needle);
    var k :| OccursAt(hay, needle, k);
    if k + |needle| <= |x| {
      assert x[k..k + |needle|] == hay[k..k + |needle|];
      assert OccursAt(x, needle, k);
      ContainsIffOccurs(x, needle);
    } else if k > |x| {
      assert y[k - |x| - 1..k - |x| - 1 + |needle|] == hay[k..k + |needle|];
      assert OccursAt(y, needle, k - |x| - 1);
      ContainsIffOccurs(y, needle);
    } else {
      SeparatorInside(x, c, y, needle, k);
    }
  }

  /** An occurrence straddling position `|x|` of `x + [c] + y` contains `c`. */
  lemma SeparatorInside(x: string, c: char, y: string, needle: string, k: int)
    requires OccursAt(x + [c] + y, needle, k) && k <= |x| < k + |needle|
    ensures c in needle
  {
    assert needle[|x| - k] == (x + [c] + y)[k..k + |needle|][|x| - k] == (x + [c] + y)[|x|];
  }

  /** A space-free needle occurs in lower-cased words only if it occurs in one lower-cased word. */
  lemma {:induction false} NoWordContains(ws: seq<string>, needle: string)
    requires |ws| > 0 && ' ' !in needle
    requires forall i :: 0 <= i < |ws| ==> !Contains(Lower(ws[i]), needle)
    ensures !Contains(Lower(Words(ws)), needle)
  {
    if |ws| > 1 {
      NoWordContains(ws[1..], needle);
      LowerWordsStep(ws);
      if Contains(Lower(Words(ws)), needle) {
        SplitAtSeparator(Lower(ws[0]), ' ', Lower(Words(ws[1..])), needle);
      }
    }
  }

  /** A needle occurring in one lower-cased word occurs in the lower-cased text. */
  lemma {:induction false} SomeWordContains(ws: seq<string>, needle: string, i: int)
    requires 0 <= i < |ws| && Contains(Lower(ws[i]), needle)
    ensures Contains(Lower(Words(ws)), needle)
  {
    if |ws| > 1 {
      LowerWordsStep(ws);
      if i == 0 {
        ContainsInPart(Lower(ws[0]), [' '] + Lower(Words(ws[1..])), needle);
      } else {
        SomeWordContains(ws[1..], needle, i - 1);
        ContainsInPart(Lower(ws[0]) + [' '], Lower(Words(ws[1..])), needle);
      }
      assert Lower(ws[0]) + [' '] + Lower(Words(ws[1..])) == Lower(ws[0]) + ([' '] + Lower(Words(ws[1..])));
    }
  }
}

=== FILE: upload.dfy ===
/**
 * The leaf disease detection page: the record of `useState` fields and the
 * event handlers that change it. The asynchronous submit is split into the
 * part that runs on the click (`SubmitStart`) and the part that runs when the
 * awaited analysis settles (`SubmitComplete`).
 */
module LeafUpload {
  import opened Options

  /** A browser `File`; only its MIME type matters to the handlers. */
  datatype File = File(name: string, mimeType: string)

  /** The string `URL.createObjectURL` returns, kept opaque. */
  datatype ObjectUrl = ObjectUrl(handle: nat)

  datatype Remedy = Remedy(kind: string, products: seq<string>, instructions: string)

  datatype Fertilizer = Fertilizer(name: string, purpose: string, application: string)

  /** The analysis result shown to the user (the confidence percentage is not modelled). */
  datatype Detection = Detection(
    disease: string,
    description: string,
    remedies: seq<Remedy>,
    fertilizers: seq<Fertilizer>,
    preventiveMeasures: seq<string>)

  /** How the awaited analysis settled: a result, or a thrown error caught by the handler. */
  datatype Analysis = Analysed(detection: Detection) | AnalysisFailed

  /** The page's five state variables. */
  datatype PageState = PageState(
    selectedImage: Option<File>,
    previewUrl: Option<ObjectUrl>,
    loading: bool,
    error: Option<string>,
    results: Option<Detection>)

  const SelectImageFileError: string := "Please select an image file"
  const DropImageFileError: string := "Please drop an image file"
  const NoImageSelectedError: string := "Please select an image first"
  const AnalysisFailedError: string := "Failed to analyze image. Please try again."

  /** The state before any interaction. */
  const Initial: PageState := PageState(None, None, false, None, None)

  /** `file.type.startsWith('image/')`. */
  predicate IsImage(f: File) {
    "image/" <= f.mimeType
  }

  /** An accepted image file is remembered with its preview, and the error is cleared. */
  function Accept(s: PageState, f: File, url: ObjectUrl): PageState {
    s.(selectedImage := Some(f), previewUrl := Some(url), error := None)
  }

  /** `handleImageUpload`: `file` is the first file of the input, if any. */
  function HandleImageUpload(s: PageState, file: Option<File>, url: ObjectUrl): (r: PageState)
    ensures file.None? ==> r == s
    ensures file.Some? && IsImage(file.value) ==>
      r.selectedImage == file && r.previewUrl == Some(url) && r.error.None?
    ensures file.Some? && !IsImage(file.value) ==>
      r.error == Some(SelectImageFileError) && r.selectedImage == s.selectedImage && r.previewUrl == s.previewUrl
    ensures r.loading == s.loading && r.results == s.results
  {
    match file
    case None => s
    case Some(f) =>
      if IsImage(f) then Accept(s, f, url) else s.(error := Some(SelectImageFileError))
  }

  /** `handleDrop`: `file` is the first dropped file, if any. */
  function HandleDrop(s: PageState, file: Option<File>, url: ObjectUrl): (r: PageState)
    ensures file.Some? && IsImage(file.value) ==>
      r.selectedImage == file && r.previewUrl == Some(url) && r.error.None?
    ensures (file.None? || !IsImage(file.value)) ==>
      r.error == Some(DropImageFileError) && r.selectedImage == s.selectedImage && r.previewUrl == s.previewUrl
    ensures r.loading == s.loading && r.results == s.results
  {
    if file.Some? && IsImage(file.value) then Accept(s, file.value, url)
    else s.(error := Some(DropImageFileError))
  }

  /** `handleSubmit` up to its `await`. */
  function SubmitStart(s: PageState): (r: PageState)
    ensures s.selectedImage.None? ==> r == s.(error := Some(NoImageSelectedError))
    ensures s.selectedImage.Some? ==> r.loading && r.error.None?
    ensures r.selectedImage == s.selectedImage && r.previewUrl == s.previewUrl && r.results == s.results
  {
    if s.selectedImage.None? then s.(error := Some(NoImageSelectedError))
    else s.(loading := true, error := None)
  }

  /** `handleSubmit` after its `await`: the `try`/`catch`/`finally` tail. */
  function SubmitComplete(s: PageState, outcome: Analysis): (r: PageState)
    ensures !r.loading
    ensures outcome.Analysed? ==> r.results == Some(outcome.detection) && r.error == s.error
    ensures outcome.AnalysisFailed? ==> r.results == s.results && r.error == Some(AnalysisFailedError)
    ensures r.selectedImage == s.selectedImage && r.previewUrl == s.previewUrl
  {
    match outcome
    case Analysed(d) => s.(results := Some(d), loading := false)
    case AnalysisFailed => s.(error := Some(AnalysisFailedError), loading := false)
  }

  /** `handleReset`. */
  function HandleReset(s: PageState): (r: PageState)
    ensures r.selectedImage.None? && r.previewUrl.None? && r.results.None? && r.error.None?
    ensures r.loading == s.loading
  {
    s.(selectedImage := None, previewUrl := None, results := None, error := None)
  }

  /** The events the page reacts to. */
  datatype Event =
    | Upload(file: Option<File>, url: ObjectUrl)
    | Drop(file: Option<File>, url: ObjectUrl)
    | Submit
    | AnalysisSettled(outcome: Analysis)
    | Reset

  function Step(s: PageState, e: Event): PageState {
    match e
    case Upload(f, u) => HandleImageUpload(s, f, u)
    case Drop(f, u) => HandleDrop(s, f, u)
    case Submit => SubmitStart(s)
    case AnalysisSettled(o) => SubmitComplete(s, o)
    case Reset => HandleReset(s)
  }

  function Run(s: PageState, events: seq<Event>): PageState
    decreases |events|
  {
    if |events| == 0 then s else Run(Step(s, events[0]), events[1..])
  }

  /**
   * The page invariant: a preview is shown exactly when an image is selected,
   * and a selected file is always an image.
   */
  predicate WellFormed(s: PageState) {
    && (s.selectedImage.Some? <==> s.previewUrl.Some?)
    && (s.selectedImage.Some? ==> IsImage(s.selectedImage.value))
  }

  /** Every handler keeps the invariant. */
  lemma StepPreservesWellFormed(s: PageState, e: Event)
    requires WellFormed(s)
    ensures WellFormed(Step(s, e))
  {
  }

  /** So does every sequence of events, starting from the initial state. */
  lemma {:induction false} RunPreservesWellFormed(s: PageState, events: seq<Event>)
    requires WellFormed(s)
    ensures WellFormed(Run(s, events))
    decreases |events|
  {
    if |events| > 0 {
      StepPreservesWellFormed(s, events[0]);
      RunPreservesWellFormed(Step(s, events[0]), events[1..]);
    }
  }

  lemma ReachableIsWellFormed(events: seq<Event>)
    ensures WellFormed(Run(Initial, events))
  {
    RunPreservesWellFormed(Initial, events);
  }

  /**
   * Upload and drop agree on image files; on a missing file upload does
   * nothing while drop reports an error; on a non-image file both keep the
   * selection and differ only in the message.
   */
  lemma UploadVersusDrop(s: PageState, file: Option<File>, url: ObjectUrl)
    ensures file.Some? && IsImage(file.value) ==> HandleImageUpload(s, file, url) == HandleDrop(s, file, url)
    ensures file.None? ==> HandleImageUpload(s, file, url) == s && HandleDrop(s, file, url).error == Some(DropImageFileError)
    ensures file.Some? && !IsImage(file.value) ==>
      HandleImageUpload(s, file, url) == HandleDrop(s, file, url).(error := Some(SelectImageFileError))
  {
  }

  /**
   * The submit button is rendered only while a preview exists and is
   * enabled only while not loading, so on a reachable state a click never
   * meets the "no image" guard.
   */
  lemma SubmitFromButtonStartsAnalysis(events: seq<Event>)
    requires Run(Initial, events).previewUrl.Some?
    requires !Run(Initial, events).loading
    ensures SubmitStart(Run(Initial, events)).loading
    ensures SubmitStart(Run(Initial, events)).error.None?
  {
    ReachableIsWellFormed(events);
  }

  /** A click followed by the analysis settling always ends out of the loading state. */
  lemma SubmitRoundEndsIdle(s: PageState, outcome: Analysis)
    ensures !Run(s, [Submit, AnalysisSettled(outcome)]).loading
    ensures s.selectedImage.Some? && outcome.Analysed? ==>
      Run(s, [Submit, AnalysisSettled(outcome)]).results == Some(outcome.detection) &&
      Run(s, [Submit, AnalysisSettled(outcome)]).error.None?
  {
    var es := [Submit, AnalysisSettled(outcome)];
    var s1 := SubmitStart(s);
    var s2 := SubmitComplete(s1, outcome);
    assert es[1..] == [AnalysisSettled(outcome)];
    assert Run(s, es) == Run(s1, es[1..]) == Run(s2, []) == s2;
  }

  /**
   * Reset does not cancel a pending analysis: reset while loading, then the
   * analysis settles, and its result is shown with no image selected.
   */
  lemma ResetDoesNotCancelAnalysis(s: PageState, d: Detection)
    requires s.selectedImage.Some?
    ensures var r := Run(s, [Submit, Reset, AnalysisSettled(Analysed(d))]);
      r.results == Some(d) && r.selectedImage.None? && r.previewUrl.None? && !r.loading
  {
    var es := [Submit, Reset, AnalysisSettled(Analysed(d))];
    var s1 := SubmitStart(s);
    var s2 := HandleReset(s1);
    var s3 := SubmitComplete(s2, Analysed(d));
    assert es[1..] == [Reset, AnalysisSettled(Analysed(d))];
    assert es[1..][1..] == [AnalysisSettled(Analysed(d))];
    assert Run(s, es) == Run(s1, es[1..]) == Run(s2, es[1..][1..]) == Run(s3, []) == s3;
  }

  /** The result the page stores on every successful analysis. */
  const MockDetection: Detection := Detection(
    "Late Blight",
    "A fungal disease affecting tomato and potato plants, causing dark brown spots on leaves and stems.",
    [Remedy("Chemical", ["Copper-based fungicide", "Chlorothalonil", "Mancozeb"],
            "Apply every 7-10 days during wet weather conditions."),
     Remedy("Organic", ["Neem oil", "Copper soap", "Bacillus subtilis"],
            "Apply weekly as a preventive measure.")],
    [Fertilizer("Balanced NPK (10-10-10)", "Support overall plant health", "Apply 2-3 inches away from plant base"),
     Fertilizer("Calcium-rich fertilizer", "Strengthen cell walls", "Foliar spray every 14 days")],
    ["Improve air circulation between plants",
     "Water at the base of plants",
     "Remove infected plant debris",
     "Rotate crops annually"])

  /** With the page's own analysis, a submitted image always ends showing "Late Blight". */
  lemma PageAnalysisShowsLateBlight(s: PageState)
    requires s.selectedImage.Some?
    ensures var r := Run(s, [Submit, AnalysisSettled(Analysed(MockDetection))]);
      r.results == Some(MockDetection) && r.results.value.disease == "Late Blight" && !r.loading && r.error.None?
  {
    SubmitRoundEndsIdle(s, Analysed(MockDetection));
  }
}
